=== FILE: README.md ===
# Vehicle relay core, modelled in Dafny

This project models the server-side relay of a WebSocket-to-TCP bridge that drives a small robot car
(`src/server.js`). The relay owns the single TCP connection to the car. It turns client intents
(`connect`, `disconnectCar`, `command:<ACTION>`) into newline-terminated JSON frames
`{"H":"Elegoo","N":<op>,"D1":<int>,"D2":<int>}`. Before each write it applies a 50 ms debounce and a
duplicate filter. While connected it sends the literal `{Heartbeat}\n` every second. It broadcasts
`{type:'status', isConnected, error}` to every open client.

The model is functional. The module-level variables `carSocket`, `isCarConnected`,
`heartbeatInterval`, `lastCommandTime` and `lastSentCommand` form one immutable `VehicleLink.Link`
record. Each function and each socket, timer or write callback is a pure step. A step takes the
record and the current time `now` in milliseconds. It returns the new record and what it emitted:
payloads written to the socket (`Wire`) and messages broadcast to the clients (`Broadcast`).

| file | module | contents |
|---|---|---|
| `wrappers.dfy` | `Wrappers` | `Option`, for JavaScript's null-or-value variables |
| `decimal.dfy` | `Decimal` | the decimal text `JSON.stringify` writes for an integer, and its reader |
| `codec.dfy` | `Codec` | frames, clamping builders, the heartbeat literal, the action table, and the frame reader used to state what each payload carries |
| `link.dfy` | `VehicleLink` | the link record and its invariant, `connectToCar`, `disconnectFromCar`, `sendCarCommand`, `startHeartbeat`/`stopHeartbeat`, `broadcastConnectionStatus`, and the socket and write callbacks |
| `session.dfy` | `Session` | the per-client `message` handler, one event type for everything the runtime can deliver, and the fold of a timed event trace |
| `scenarios.dfy` | `Scenarios` | properties spanning several events: de-duplication, debounce, heartbeats, teardown, connect-then-open |

Modelling choices:

- A write is two events. `carSocket.write` emits `Wire(p)` and records a pending write holding `p` and
  `now`. Its completion callback is the separate event `WriteSettled(index, err)`. The debounce
  time and the last-sent payload change when the write completes, not when it is issued, as in the
  source. `disconnectFromCar` also clears the last-sent payload.
- `WriteSettled` may complete any pending write, in any order. The source is stricter: one socket
  runs its write callbacks in write order. The model therefore allows more orders than the source.
- A pending write survives `disconnectFromCar`. `removeAllListeners` removes event listeners, not
  write callbacks, so a callback can still run after the socket is gone.
- A socket callback reaches the link only while a socket is held, because `disconnectFromCar`
  removes every listener before destroying the socket. The connect callback fires once, while the
  link is still connecting. The timeout fires only while it is armed, and only 5000 ms after the
  connect attempt started. An interval fires only while it is running.
- A timer is an identifier. `liveTimers` is the set of intervals actually running. `Valid` states
  that the only running interval is the one `heartbeatInterval` refers to, and that it runs exactly
  while the link is connected.
- A payload is a `Codec.Payload`: a drive frame or the heartbeat. Its bytes are `Codec.Encode(p)`.
  `Codec.EncodeInjective` proves that two payloads are equal exactly when their texts are equal. So
  comparing payloads in the model is the same as the `===` on strings in the source.
- The broadcast `{type:'status', isConnected:false, message:'Connecting...'}` is
  `Progress("Connecting...")`.
- A client frame arrives already parsed as an `Intent`. A frame that does not parse, has another
  `type`, or is not an object is `Unrecognised`. In `Command(action)`, `action` is the key string
  the table lookup uses, that is `String(data.action)`. JavaScript turns a non-string property key
  into that string, so `{"type":"command","action":["LEFT"]}` arrives as `Command("LEFT")`.
- An action name outside STOP/FORWARD/LEFT/RIGHT maps to nothing. That includes inherited keys
  such as `constructor`. The source does look those up as truthy values, but the `.trim()` call in
  the log line then throws. The handler's `catch` swallows the error before any write or state
  change, so the observable effect is the same: nothing happens.

Where the code and the intended design differ, the model follows the code:

- A `connect` intent while the link is connecting reaches `connectToCar`, which returns without
  broadcasting anything. Only a connected link re-sends its status.
- The filters see only completed writes. The same command sent twice before the first write
  completes is written twice (`Scenarios.RepeatBeforeCompletionWrittenTwice`).
- The STOP sent when the socket opens goes through the filters. If the socket opens less than 50 ms
  after the last completed write, that STOP is dropped (`Scenarios.InitialStopDebounced`).
- A completed heartbeat write also refreshes the debounce time, so it delays a command that follows
  within 50 ms (`Scenarios.HeartbeatDebouncesCommand`).
- A write callback can still change the link after its connection is torn down. A STOP write that
  completes after a disconnect records STOP as the last command again. The safety STOP of the next
  open is then dropped as a duplicate (`Scenarios.LateStopCompletionSuppressesInitialStop`).
- A write issued before a disconnect that fails after a new connection has opened tears the new
  connection down (`Scenarios.LateFailureTearsDownNewConnection`).

## Model

| member | source | states |
|---|---|---|
| Decimal.NatToString | src/server.js:31 | the decimal text of a natural is all digits, non-empty, with no leading zero |
| Decimal.IntToString | src/server.js:31 | an integer's text is made of numeral characters and starts with `-` exactly when the integer is negative |
| Decimal.ParseIntToString | src/server.js:31 | reading back the decimal text of any integer gives that integer |
| Decimal.IntToStringInjective | src/server.js:31 | distinct integers are written as distinct texts |
| Codec.Serialize | src/server.js:24-38 | a frame's text starts with the `{"H":"Elegoo","N":` header, ends with `}` and a newline, and holds no other newline: exactly one line |
| Codec.ParseSerialize | src/server.js:28-38 | the vehicle reads back exactly the N, D1 and D2 the relay put into a frame |
| Codec.SerializeInjective | src/server.js:28-38 | distinct frames are distinct texts |
| Codec.DecodeEncode | src/server.js:44-49 | every payload, heartbeat included, is read back as itself |
| Codec.EncodeInjective | src/server.js:205-212 | two payloads have equal texts exactly when they are the same payload, so the filters' string comparisons are payload comparisons |
| Codec.HeartbeatIsNotAFrame | src/server.js:49 | the heartbeat literal is not read as a drive frame |
| Codec.Clamp | src/server.js:29-30 | the result lies in [lo, hi], equals x when x is already in range, and is the nearer bound otherwise |
| Codec.N4Command | src/server.js:28-32 | op code 4; each operand lies in [-255, 255], an in-range operand passes through unchanged, and an out-of-range one becomes the nearer bound |
| Codec.N3Command | src/server.js:33-38 | op code 3; D1 is the direction code unchanged; D2 lies in [0, 255], passes through when in range, and becomes the nearer bound otherwise |
| Codec.StopCommand | src/server.js:24-26 | the stop frame is the N4 frame with both operands 0 |
| Codec.StopIsN4Zero | src/server.js:24-32 | the stop payload is byte for byte the N4 payload with both operands 0 |
| Codec.ActionFrames | src/server.js:41-48 | STOP, FORWARD, LEFT and RIGHT carry (4,0,0), (4,100,100), (3,1,75) and (3,2,75) |
| Codec.StopText | src/server.js:24-26 | the stop payload is exactly `{"H":"Elegoo","N":4,"D1":0,"D2":0}` followed by a newline |
| Codec.LeftText | src/server.js:47 | the LEFT payload is exactly `{"H":"Elegoo","N":3,"D1":1,"D2":75}` followed by a newline |
| Codec.ActionCommand | src/server.js:51-57 | a name maps to a payload exactly when it is STOP, FORWARD, LEFT or RIGHT; STOP maps to `CMD_STOP`, FORWARD to `CMD_FORWARD`, LEFT to `CMD_LEFT` and RIGHT to `CMD_RIGHT`; every mapped payload is a drive frame, and BACKWARD is not among them |
| Codec.ActionTableInjective | src/server.js:51-57 | the mapped payload texts are pairwise distinct, and none is the heartbeat |
| VehicleLink.InitialValid | src/server.js:17-21 | the start-up values satisfy the link invariant and are Disconnected |
| VehicleLink.HeartbeatOnlyWhileConnected | src/server.js:237-251 | under the invariant, an interval runs exactly when the link is connected |
| VehicleLink.ConnectionStatus | src/server.js:263-270 | the status carries the given error and says connected exactly when the link is connected |
| VehicleLink.StopHeartbeat | src/server.js:245-251 | afterwards no interval is referenced; only the referenced interval stops running; nothing else changes |
| VehicleLink.StartHeartbeat | src/server.js:237-243 | the prior interval is stopped and a fresh one starts; if at most the prior one was running, exactly one runs afterwards |
| VehicleLink.DisconnectFromCar | src/server.js:182-194 | from any state: Disconnected, no interval referenced, last command forgotten, the heartbeat's timer stopped, one `Status(false, reason)` broadcast, debounce time and pending writes kept (together: `VehicleLink.TornDown`), invariant preserved |
| VehicleLink.ConnectToCar | src/server.js:124-136 | no effect while a socket exists or the link is connected; from Disconnected, it becomes Connecting with the timeout armed at `now` and broadcasts one "Connecting..." notice |
| VehicleLink.SendCarCommand | src/server.js:196-235 | writes nothing and changes nothing without a connected socket; otherwise it either drops the payload or writes it and records one pending write, with the filter variables unchanged |
| VehicleLink.OnWriteSettled | src/server.js:223-234 | exactly the settled entry leaves the pending list; on failure the teardown of `disconnectFromCar` follows: Disconnected, heartbeat stopped, last command forgotten, debounce time kept, one "Send Error: …" status; on success the debounce time becomes the send time and the last command becomes the payload unless it is the heartbeat |
| VehicleLink.OnOpen | src/server.js:138-154 | the link ends Connected with exactly one interval running; at most STOP is written, before the connected status, and it is written exactly when it passes the filters, in which case it is recorded as a pending write; the debounce time and last command are untouched, and apart from the connected flag, the disarmed socket timeout, the interval and the pending writes nothing changes |
| VehicleLink.OnTimeout | src/server.js:161-164 | a timeout is the full teardown of `disconnectFromCar("Connection Timeout")` (`VehicleLink.TornDown`): Disconnected, heartbeat stopped, last command forgotten, debounce time and pending writes kept, one "Connection Timeout" status |
| VehicleLink.OnSocketError | src/server.js:166-170 | a socket error changes nothing and emits nothing |
| VehicleLink.OnClose | src/server.js:172-179 | a close tears down with the reason `CloseReason(hadError)` ("Socket Error/Closed" or "Connection Closed by Car") unless already Disconnected, in which case nothing happens; the teardown is the full one of `disconnectFromCar` (`VehicleLink.TornDown`) |
| VehicleLink.OnHeartbeat | src/server.js:240-242 | a tick on a connected socket always writes the heartbeat and records it as a pending write, changing nothing else; without a connected socket it does nothing |
| VehicleLink.Shutdown | src/server.js:281-297 | SIGINT stops the heartbeat and writes STOP, past both filters, exactly when connected |
| Session.HandleMessage | src/server.js:83-101 | connect from Disconnected starts connecting, re-broadcasts the connected status when Connected, and is silent when Connecting; connect from Disconnected only creates the socket, with the connect timeout armed at `now`; disconnectCar is the full teardown of `disconnectFromCar("Client request")` (`VehicleLink.TornDown`); an unmapped action or unknown type does nothing; only a command's mapped payload is ever written |
| Session.Step | src/server.js:72-251 | every event keeps the link invariant |
| Session.Run | src/server.js:72-251 | any trace of events keeps the link invariant |
| Session.ReachableValid | src/server.js:237-251 | every reachable state satisfies the invariant, so an interval runs only while connected |
| Session.RepeatedConnectWhileConnected | src/server.js:83-89 | n connect intents on a connected link leave it unchanged and broadcast the connected status n times |
| Session.RepeatedConnectWhileConnecting | src/server.js:124-129 | n connect intents on a connecting link leave it unchanged and emit nothing |
| Session.CommandStep | src/server.js:92-95 | a mapped command intent is `sendCarCommand` of its pre-built payload |
| Scenarios.SendFilter | src/server.js:205-212 | on a connected socket a payload is written exactly when it passes the filters (`VehicleLink.PassesFilters`, both tests of the source); the heartbeat always is; others are dropped within 50 ms of the last completed write or when equal to the last completed command |
| Scenarios.DuplicateDropped | src/server.js:209-232 | once a command's write has completed, the next send of the same command is dropped, whatever the delay |
| Scenarios.DebounceDropsSecond | src/server.js:205-228 | after a completed write, a different command less than 50 ms after it is dropped |
| Scenarios.HeartbeatDebouncesCommand | src/server.js:205-228 | a completed heartbeat write drops a command that follows within 50 ms |
| Scenarios.HeartbeatsNeverDropped | src/server.js:205-212 | two heartbeat ticks are both written, whatever the gap |
| Scenarios.RepeatBeforeCompletionWrittenTwice | src/server.js:205-234 | the same command sent twice before the first write completes is written twice |
| Scenarios.ErrorThenCloseTearsDownOnce | src/server.js:166-179 | a socket error then close on a connected link broadcasts exactly one disconnected status and leaves no interval; a later close does nothing |
| Scenarios.ConnectThenOpen | src/server.js:130-154 | connect then open broadcasts "Connecting...", writes STOP, then broadcasts connected, and leaves exactly one interval running |
| Scenarios.InitialStopDebounced | src/server.js:150-153 | an open less than 50 ms after the last completed write sends no STOP |
| Scenarios.DisconnectIdempotent | src/server.js:182-194 | disconnecting twice leaves the same link as disconnecting once |
| Scenarios.LateJoinerSeesCurrentStatus | src/server.js:72-76 | a joining client causes one broadcast of the current connected flag and no change |
| Scenarios.ConnectThenTimeout | src/server.js:130-164 | a connect attempt left unanswered for 5000 ms broadcasts "Connecting...", then tears down with one "Connection Timeout" status |
| Scenarios.EarlyTimeoutIgnored | src/server.js:136 | the connect timeout does not fire before 5000 ms have passed since the attempt began |
| Scenarios.ConnectedIgnoresTimeoutAndData | src/server.js:138-159 | on a connected link the disabled timeout and inbound data change nothing and emit nothing |
| Scenarios.StoppedIntervalIsSilent | src/server.js:240-250 | an interval that has been cleared never ticks again |
| Scenarios.DisconnectedIgnoresSocketEvents | src/server.js:188-191 | once Disconnected, no socket callback or interval tick has any effect |
| Scenarios.LateStopCompletionSuppressesInitialStop | src/server.js:223-232 | a STOP write completing after teardown makes the next open skip its safety STOP as a duplicate |
| Scenarios.LateFailureTearsDownNewConnection | src/server.js:223-227 | a write from before a disconnect that fails after a reconnect leaves the link Disconnected with a "Send Error: …" status last |
| Scenarios.LeftReachesVehicle | src/server.js:92-95 | a LEFT intent on an unfiltered connected link writes the turn frame (3, 1, 75), whose bytes `Codec.LeftText` gives |

## Left out

- Express static serving, the HTTP server and WebSocket server setup (`src/server.js:59-70`, `273-278`): library plumbing.
- The fan-out of a broadcast to each client whose `readyState` is OPEN. A broadcast is one `Broadcast` output, standing for one message to every open client.
- Client registration and the client `close`/`error` handlers. They only log, and the library keeps the client set.
- `JSON.parse` of client frames, and `Math.round` on non-integer speeds. Intents arrive parsed, and speeds are integers.
- Real socket I/O, `setKeepAlive`/`setNoDelay` (best effort, log only), inbound `data` (log only) and all logging.
- Real timers and the wall clock. Time is the integer `now`, and an interval is an identifier in a set. Heartbeat ticks may come at any time while the interval runs: they are not spaced the 1000 ms of `HEARTBEAT_INTERVAL_MS` apart.
- The process exit and the 500 ms exit timer of the SIGINT handler. `VehicleLink.Shutdown` keeps only the heartbeat stop and the direct STOP write.
- Decimal.IntToString: does not model `JSON.stringify`'s exponent form for magnitudes of 10^21 and above, because every number the relay encodes lies in [-255, 255] or is an op code.
- `CMD_BACKWARD` is defined (`Codec.CmdBackward`) but, as in the source, not reachable from any intent.
- The browser client `src/public/script.js` (UI, video stream, pose inference) is not part of this model.

=== FILE: codec.dfy ===
/**
 * The command codec of the relay: the newline-terminated JSON frames
 * `{"H":"Elegoo","N":<op>,"D1":<int>,"D2":<int>}` written to the vehicle, the
 * builders that clamp their operands, the fixed heartbeat literal, and the
 * table from client action names to pre-built payloads.
 *
 * A builder returns the object the relay hands to `JSON.stringify`; `Encode`
 * is the stringification. `Parse` and `Decode` are the vehicle's side of the
 * protocol: they are not part of the relay, and serve here to state what each
 * text carries.
 */
module Codec {
  import opened Wrappers
  import Decimal

  const CommandId := "Elegoo"
  const DirCodeLeft := 1
  const DirCodeRight := 2
  const DefaultSpeed := 100
  const TurningSpeed := 75

  const MaxSpeed := 255

  /** The four fields of a drive frame: op code N and operands D1, D2 */
  datatype Frame = Frame(n: int, d1: int, d2: int)

  const Header := "{\"H\":\"" + CommandId + "\",\"N\":"
  const D1Key := ",\"D1\":"
  const D2Key := ",\"D2\":"
  const Trailer := "}\n"

  /** `JSON.stringify({H, N, D1, D2}) + "\n"`: keys in insertion order, no blanks */
  function Serialize(f: Frame): (s: string)
    ensures StartsWith(s, Header)
    ensures |s| >= |Trailer| && s[|s| - |Trailer|..] == Trailer
    ensures forall i :: 0 <= i < |s| - 1 ==> s[i] != '\n'
  {
    var tn, t1, t2 := Decimal.IntToString(f.n), Decimal.IntToString(f.d1), Decimal.IntToString(f.d2);
    FrameTextShape(tn, t1, t2);
    Header + (tn + (D1Key + (t1 + (D2Key + (t2 + Trailer)))))
  }

  predicate NoNewline(t: string) {
    forall i :: 0 <= i < |t| ==> t[i] != '\n'
  }

  /** A frame text starts with the header, ends with the trailer, and holds no other newline */
  lemma FrameTextShape(tn: string, t1: string, t2: string)
    requires NoNewline(tn) && NoNewline(t1) && NoNewline(t2)
    ensures var s := Header + (tn + (D1Key + (t1 + (D2Key + (t2 + Trailer)))));
      && StartsWith(s, Header)
      && |s| >= |Trailer| && s[|s| - |Trailer|..] == Trailer
      && forall i :: 0 <= i < |s| - 1 ==> s[i] != '\n'
  {
    var body := Header + (tn + (D1Key + (t1 + (D2Key + (t2 + "}")))));
    var s := Header + (tn + (D1Key + (t1 + (D2Key + (t2 + Trailer)))));
    assert s == body + "\n";
    assert NoNewline(Header) && NoNewline(D1Key) && NoNewline(D2Key) && NoNewline("}");
    assert NoNewline(t2 + "}");
    assert NoNewline(D2Key + (t2 + "}"));
    assert NoNewline(t1 + (D2Key + (t2 + "}")));
    assert NoNewline(D1Key + (t1 + (D2Key + (t2 + "}"))));
    assert NoNewline(tn + (D1Key + (t1 + (D2Key + (t2 + "}")))));
    assert NoNewline(body);
    assert s[..|Header|] == Header;
    assert s[|s| - |Trailer|..] == Trailer;
  }

  predicate StartsWith(s: string, prefix: string) {
    |prefix| <= |s| && s[..|prefix|] == prefix
  }

  /** Length of the longest prefix of `s` made of numeral characters */
  function NumeralLength(s: string): (k: nat)
    ensures k <= |s|
    ensures forall i :: 0 <= i < k ==> Decimal.IsNumeral(s[i])
    ensures k < |s| ==> !Decimal.IsNumeral(s[k])
    decreases |s|
  {
    if |s| == 0 || !Decimal.IsNumeral(s[0]) then 0 else 1 + NumeralLength(s[1..])
  }

  /** The rest of `s` after `prefix`, if `s` starts with it */
  function Expect(prefix: string, s: string): (r: Option<string>)
    ensures r.Some? ==> s == prefix + r.value
  {
    if StartsWith(s, prefix) then Some(s[|prefix|..]) else None
  }

  /** Reads the integer at the front of `s`, returning it and the rest of `s` */
  function ReadNumber(s: string): Option<(int, string)>
  {
    var k := NumeralLength(s);
    match Decimal.ParseInt(s[..k])
    case Some(x) => Some((x, s[k..]))
    case None => None
  }

  /** Reads one frame; None for anything that is not exactly one frame */
  function Parse(s: string): Option<Frame>
  {
    match Expect(Header, s)
    case None => None
    case Some(a) =>
      match ReadNumber(a)
      case None => None
      case Some((n, a')) =>
        match Expect(D1Key, a')
        case None => None
        case Some(b) =>
          match ReadNumber(b)
          case None => None
          case Some((d1, b')) =>
            match Expect(D2Key, b')
            case None => None
            case Some(c) =>
              match ReadNumber(c)
              case None => None
              case Some((d2, c')) =>
                if c' == Trailer then Some(Frame(n, d1, d2)) else None
  }

  lemma ExpectConcat(prefix: string, rest: string)
    ensures Expect(prefix, prefix + rest) == Some(rest)
  {
    assert (prefix + rest)[..|prefix|] == prefix;
    assert (prefix + rest)[|prefix|..] == rest;
  }

  /** A numeral run followed by a non-numeral is split exactly at its end */
  lemma NumeralLengthOfConcat(t: string, rest: string)
    requires forall i :: 0 <= i < |t| ==> Decimal.IsNumeral(t[i])
    requires |rest| > 0 && !Decimal.IsNumeral(rest[0])
    ensures NumeralLength(t + rest) == |t|
  {
    var s := t + rest;
    var k := NumeralLength(s);
    assert s[|t|] == rest[0];
  }

  /** The text of `x` followed by a non-numeral is read back as `x` */
  lemma ReadNumberOfText(x: int, rest: string)
    requires |rest| > 0 && !Decimal.IsNumeral(rest[0])
    ensures ReadNumber(Decimal.IntToString(x) + rest) == Some((x, rest))
  {
    var t := Decimal.IntToString(x);
    NumeralLengthOfConcat(t, rest);
    assert (t + rest)[..|t|] == t;
    assert (t + rest)[|t|..] == rest;
    Decimal.ParseIntToString(x);
  }

  /** The vehicle reads back exactly the frame the relay serialized */
  lemma ParseSerialize(f: Frame)
    ensures Parse(Serialize(f)) == Some(f)
  {
    var tn, t1, t2 := Decimal.IntToString(f.n), Decimal.IntToString(f.d1), Decimal.IntToString(f.d2);
    var c := t2 + Trailer;
    var b := t1 + (D2Key + c);
    var a := tn + (D1Key + b);
    ExpectConcat(Header, a);
    ReadNumberOfText(f.n, D1Key + b);
    ExpectConcat(D1Key, b);
    ReadNumberOfText(f.d1, D2Key + c);
    ExpectConcat(D2Key, c);
    ReadNumberOfText(f.d2, Trailer);
  }

  /** Different frames are different texts */
  lemma SerializeInjective(f: Frame, g: Frame)
    ensures Serialize(f) == Serialize(g) ==> f == g
  {
    ParseSerialize(f);
    ParseSerialize(g);
  }

  /** What the relay writes: a drive frame, or the keep-alive literal */
  datatype Payload = Drive(frame: Frame) | Heartbeat

  /** `CMD_HEARTBEAT`: deliberately not a frame */
  const HeartbeatLiteral := "{Heartbeat}\n"

  /** The text written to the socket for a payload */
  function Encode(p: Payload): string
  {
    match p
    case Drive(f) => Serialize(f)
    case Heartbeat => HeartbeatLiteral
  }

  /** The vehicle's reading of one line */
  function Decode(s: string): Option<Payload>
  {
    if s == HeartbeatLiteral then Some(Heartbeat)
    else match Parse(s)
      case Some(f) => Some(Drive(f))
      case None => None
  }

  /** The heartbeat literal is not read as a frame */
  lemma HeartbeatIsNotAFrame()
    ensures Parse(HeartbeatLiteral) == None
  {
    assert HeartbeatLiteral[1] != Header[1];
  }

  /** Every payload is read back as itself */
  lemma DecodeEncode(p: Payload)
    ensures Decode(Encode(p)) == Some(p)
  {
    match p
    case Drive(f) =>
      ParseSerialize(f);
      HeartbeatIsNotAFrame();
    case Heartbeat =>
  }

  /**
   * Two payloads have the same text exactly when they are the same payload,
   * so comparing payloads is comparing the strings the relay compares.
   */
  lemma EncodeInjective(p: Payload, q: Payload)
    ensures Encode(p) == Encode(q) <==> p == q
  {
    DecodeEncode(p);
    DecodeEncode(q);
  }

  function Min(a: int, b: int): int { if a < b then a else b }
  function Max(a: int, b: int): int { if a < b then b else a }

  /** `Math.max(lo, Math.min(hi, x))` */
  function Clamp(lo: int, hi: int, x: int): (r: int)
    requires lo <= hi
    ensures lo <= r <= hi
    ensures lo <= x <= hi ==> r == x
    ensures x < lo ==> r == lo
    ensures hi < x ==> r == hi
  {
    Max(lo, Min(hi, x))
  }

  /** `createStopCommandJson`: op code 4 with both wheels at 0 */
  function StopCommand(): (f: Frame)
    ensures f == N4Command(0, 0)
  {
    Frame(4, 0, 0)
  }

  /** `createN4CommandJson`: op code 4, each wheel speed clamped into [-255, 255] */
  function N4Command(leftSpeed: int, rightSpeed: int): (f: Frame)
    ensures f.n == 4
    ensures -MaxSpeed <= f.d1 <= MaxSpeed && -MaxSpeed <= f.d2 <= MaxSpeed
    ensures -MaxSpeed <= leftSpeed <= MaxSpeed ==> f.d1 == leftSpeed
    ensures -MaxSpeed <= rightSpeed <= MaxSpeed ==> f.d2 == rightSpeed
    ensures leftSpeed > MaxSpeed ==> f.d1 == MaxSpeed
    ensures leftSpeed < -MaxSpeed ==> f.d1 == -MaxSpeed
    ensures rightSpeed > MaxSpeed ==> f.d2 == MaxSpeed
    ensures rightSpeed < -MaxSpeed ==> f.d2 == -MaxSpeed
  {
    Frame(4, Clamp(-MaxSpeed, MaxSpeed, leftSpeed), Clamp(-MaxSpeed, MaxSpeed, rightSpeed))
  }

  /** `createN3CommandJson`: op code 3, the direction code unchanged, the speed clamped into [0, 255] */
  function N3Command(directionCode: int, speed: int): (f: Frame)
    ensures f.n == 3 && f.d1 == directionCode
    ensures 0 <= f.d2 <= MaxSpeed
    ensures 0 <= speed <= MaxSpeed ==> f.d2 == speed
    ensures speed > MaxSpeed ==> f.d2 == MaxSpeed
    ensures speed < 0 ==> f.d2 == 0
  {
    Frame(3, directionCode, Clamp(0, MaxSpeed, speed))
  }

  const CmdStop := Drive(StopCommand())
  const CmdForward := Drive(N4Command(DefaultSpeed, DefaultSpeed))
  const CmdBackward := Drive(N4Command(-DefaultSpeed, -DefaultSpeed))
  const CmdLeft := Drive(N3Command(DirCodeLeft, TurningSpeed))
  const CmdRight := Drive(N3Command(DirCodeRight, TurningSpeed))
  const CmdHeartbeat := Heartbeat

  /** The keys of `ACTION_COMMAND_MAP` */
  datatype Action = Stop | Forward | Left | Right

  function ActionOf(name: string): Option<Action>
  {
    if name == "STOP" then Some(Stop)
    else if name == "FORWARD" then Some(Forward)
    else if name == "LEFT" then Some(Left)
    else if name == "RIGHT" then Some(Right)
    else None
  }

  /** The pre-built payload each action is mapped to */
  function ActionPayload(a: Action): Payload
  {
    match a
    case Stop => CmdStop
    case Forward => CmdForward
    case Left => CmdLeft
    case Right => CmdRight
  }

  /** `ACTION_COMMAND_MAP[action]`: the payload for a client action name, if it is one of the four */
  function ActionCommand(name: string): (r: Option<Payload>)
    ensures r.Some? <==> name in {"STOP", "FORWARD", "LEFT", "RIGHT"}
    ensures r.Some? ==> r.value.Drive? && r.value != CmdBackward
    ensures name == "STOP" ==> r == Some(CmdStop)
    ensures name == "FORWARD" ==> r == Some(CmdForward)
    ensures name == "LEFT" ==> r == Some(CmdLeft)
    ensures name == "RIGHT" ==> r == Some(CmdRight)
  {
    match ActionOf(name)
    case Some(a) => Some(ActionPayload(a))
    case None => None
  }

  /** The stop payload is the N4 payload with both operands 0, byte for byte */
  lemma StopIsN4Zero()
    ensures Encode(CmdStop) == Encode(Drive(N4Command(0, 0)))
  {
  }

  /** What each action puts on the wire, as the vehicle reads it */
  lemma ActionFrames()
    ensures Decode(Encode(CmdStop)) == Some(Drive(Frame(4, 0, 0)))
    ensures Decode(Encode(CmdForward)) == Some(Drive(Frame(4, 100, 100)))
    ensures Decode(Encode(CmdLeft)) == Some(Drive(Frame(3, 1, 75)))
    ensures Decode(Encode(CmdRight)) == Some(Drive(Frame(3, 2, 75)))
  {
    DecodeEncode(CmdStop);
    DecodeEncode(CmdForward);
    DecodeEncode(CmdLeft);
    DecodeEncode(CmdRight);
  }

  /** Distinct names name distinct actions */
  lemma ActionOfInjective(a: string, b: string)
    ensures ActionOf(a).Some? && ActionOf(a) == ActionOf(b) ==> a == b
  {
  }

  /** The four action texts are pairwise distinct and none is the heartbeat literal */
  lemma ActionTextsDistinct(a: Action, b: Action)
    ensures Encode(ActionPayload(a)) != HeartbeatLiteral
    ensures Encode(ActionPayload(a)) == Encode(ActionPayload(b)) ==> a == b
  {
    EncodeInjective(ActionPayload(a), ActionPayload(b));
    EncodeInjective(ActionPayload(a), Heartbeat);
  }

  /** No two action names map to the same text, and none to the heartbeat */
  lemma ActionTableInjective(a: string, b: string)
    ensures ActionCommand(a).Some? ==> ActionCommand(a).value != CmdHeartbeat
    ensures ActionCommand(a).Some? ==> Encode(ActionCommand(a).value) != HeartbeatLiteral
    ensures ActionCommand(a).Some? && ActionCommand(b).Some? ==>
      (Encode(ActionCommand(a).value) == Encode(ActionCommand(b).value) <==> a == b)
  {
    if ActionOf(a).Some? {
      ActionTextsDistinct(ActionOf(a).value, ActionOf(a).value);
      if ActionOf(b).Some? {
        ActionTextsDistinct(ActionOf(a).value, ActionOf(b).value);
        ActionOfInjective(a, b);
      }
    }
  }

  lemma SmallNumberTexts()
    ensures Decimal.IntToString(0) == "0" && Decimal.IntToString(1) == "1"
    ensures Decimal.IntToString(3) == "3" && Decimal.IntToString(4) == "4"
    ensures Decimal.IntToString(75) == "75"
  {
    assert Decimal.NatToString(75) == Decimal.NatToString(7) + [Decimal.DigitChar(5)];
  }

  /** The exact bytes of the stop payload */
  lemma StopText()
    ensures Encode(CmdStop) == "{\"H\":\"Elegoo\",\"N\":4,\"D1\":0,\"D2\":0}\n"
  {
    SmallNumberTexts();
    assert Header == "{\"H\":\"Elegoo\",\"N\":";
  }

  /** The exact bytes of the left-turn payload */
  lemma LeftText()
    ensures Encode(CmdLeft) == "{\"H\":\"Elegoo\",\"N\":3,\"D1\":1,\"D2\":75}\n"
  {
    SmallNumberTexts();
    assert Header == "{\"H\":\"Elegoo\",\"N\":";
  }
}

=== FILE: decimal.dfy ===
/**
 * Decimal text of integers, as `JSON.stringify` writes an integer-valued
 * number whose magnitude is below 10^21 (every number the relay encodes is
 * in [-255, 255]), together with the reader that inverts it.
 */
module Decimal {
  import opened Wrappers

  predicate IsDigit(c: char) {
    '0' <= c <= '9'
  }

  predicate AllDigits(s: string) {
    forall i :: 0 <= i < |s| ==> IsDigit(s[i])
  }

  /** A character that can occur in the decimal text of an integer */
  predicate IsNumeral(c: char) {
    c == '-' || IsDigit(c)
  }

  function DigitValue(c: char): (d: nat)
    requires IsDigit(c)
    ensures d < 10
  {
    c as int - '0' as int
  }

  function DigitChar(d: nat): (c: char)
    requires d < 10
    ensures IsDigit(c) && DigitValue(c) == d
  {
    ('0' as int + d) as char
  }

  /** Shortest decimal text of a natural number: digits only, no leading zero */
  function NatToString(n: nat): (s: string)
    ensures |s| > 0 && AllDigits(s)
    ensures s[0] == '0' ==> n == 0 && |s| == 1
    decreases n
  {
    if n < 10 then [DigitChar(n)] else NatToString(n / 10) + [DigitChar(n % 10)]
  }

  /** Decimal text of an integer: a minus sign for negatives, never "-0" */
  function IntToString(i: int): (s: string)
    ensures |s| > 0
    ensures forall k :: 0 <= k < |s| ==> IsNumeral(s[k])
    ensures s[0] == '-' <==> i < 0
  {
    if i < 0 then "-" + NatToString(-i) else NatToString(i)
  }

  /** The value of a string of digits, most significant first */
  function DigitsValue(s: string): nat
    requires AllDigits(s)
    decreases |s|
  {
    if |s| == 0 then 0 else DigitsValue(s[..|s| - 1]) * 10 + DigitValue(s[|s| - 1])
  }

  /** Reads an optionally signed decimal integer; None unless the whole text is one */
  function ParseInt(s: string): (r: Option<int>)
    ensures r.Some? ==> |s| > 0
    ensures r.Some? && r.value < 0 ==> s[0] == '-'
  {
    if |s| > 1 && s[0] == '-' && AllDigits(s[1..]) then Some(0 - DigitsValue(s[1..]) as int)
    else if |s| > 0 && AllDigits(s) then Some(DigitsValue(s))
    else None
  }

  lemma {:induction false} DigitsValueOfNatToString(n: nat)
    ensures DigitsValue(NatToString(n)) == n
    decreases n
  {
    if n >= 10 {
      var t := NatToString(n / 10);
      var s := t + [DigitChar(n % 10)];
      assert s[..|s| - 1] == t;
      DigitsValueOfNatToString(n / 10);
    }
  }

  /** Reading back the text of any integer gives that integer */
  lemma ParseIntToString(i: int)
    ensures ParseInt(IntToString(i)) == Some(i)
  {
    if i < 0 {
      var t := NatToString(-i);
      assert ("-" + t)[1..] == t;
      DigitsValueOfNatToString(-i);
    } else {
      DigitsValueOfNatToString(i);
    }
  }

  /** Distinct integers have distinct texts */
  lemma IntToStringInjective(i: int, j: int)
    ensures IntToString(i) == IntToString(j) ==> i == j
  {
    ParseIntToString(i);
    ParseIntToString(j);
  }
}

=== FILE: link.dfy ===
/**
 * The vehicle link: the process-wide variables `carSocket`, `isCarConnected`,
 * `heartbeatInterval`, `lastCommandTime` and `lastSentCommand`, gathered into
 * one immutable record, and the relay's functions and socket callbacks as pure
 * steps on it. Each step returns the new record and what it emitted: payloads
 * written to the socket and status messages broadcast to every open client.
 *
 * The clock is the parameter `now` (milliseconds). A timer is an identifier in
 * `liveTimers`; `carSocket.write` records a pending write whose completion
 * callback runs later, as a separate event.
 */
module VehicleLink {
  import opened Wrappers
  import Codec

  const ConnectTimeoutMs := 5000
  const SendDebounceMs := 50

  type TimerId = nat

  /** The TCP socket; `idleTimeoutSince` is Some(t) while the timeout armed at time t is set */
  datatype Socket = Socket(idleTimeoutSince: Option<int>)

  /** A `carSocket.write` whose completion callback has not run yet */
  datatype PendingWrite = PendingWrite(payload: Codec.Payload, sentAt: int)

  datatype Link = Link(
    carSocket: Option<Socket>,
    isCarConnected: bool,
    heartbeatInterval: Option<TimerId>,
    liveTimers: set<TimerId>,       // the intervals actually running
    nextTimer: TimerId,             // identifier the next `setInterval` returns
    lastCommandTime: int,
    lastSentCommand: Option<Codec.Payload>,
    pendingWrites: seq<PendingWrite>)

  /** The values the variables hold when the server starts */
  const Initial := Link(None, false, None, {}, 0, 0, None, [])

  /** `{type:'status', isConnected, error}` and the `{…, message:'Connecting...'}` notice */
  datatype Notice = Status(isConnected: bool, error: Option<string>) | Progress(message: string)

  /** A payload written to the socket (its text is `Codec.Encode(payload)`), or a broadcast */
  datatype Output = Wire(payload: Codec.Payload) | Broadcast(notice: Notice)

  datatype Stepped = Stepped(link: Link, out: seq<Output>)

  datatype Phase = Disconnected | Connecting | Connected

  function PhaseOf(l: Link): Phase
  {
    if l.isCarConnected then Connected
    else if l.carSocket.Some? then Connecting
    else Disconnected
  }

  function TimerSet(h: Option<TimerId>): set<TimerId>
  {
    match h
    case None => {}
    case Some(t) => {t}
  }

  /**
   * The link invariant: a connected link has a socket whose connect timeout
   * is disabled, the heartbeat interval is set exactly while connected, the
   * only running interval is the one `heartbeatInterval` refers to, and the
   * next timer identifier is fresh.
   */
  predicate Valid(l: Link)
  {
    && (l.isCarConnected ==> l.carSocket.Some? && l.carSocket.value.idleTimeoutSince.None?)
    && (l.heartbeatInterval.Some? <==> l.isCarConnected)
    && l.liveTimers == TimerSet(l.heartbeatInterval)
    && (l.heartbeatInterval.Some? ==> l.heartbeatInterval.value < l.nextTimer)
  }

  lemma InitialValid()
    ensures Valid(Initial) && PhaseOf(Initial) == Disconnected
  {
  }

  /** A running interval exists exactly when the link is connected */
  lemma HeartbeatOnlyWhileConnected(l: Link)
    requires Valid(l)
    ensures l.liveTimers != {} <==> PhaseOf(l) == Connected
  {
  }

  /** `broadcastConnectionStatus(error)` */
  function ConnectionStatus(l: Link, error: Option<string>): (o: Output)
    ensures o.Broadcast? && o.notice.Status? && o.notice.error == error
    ensures o.notice.isConnected <==> PhaseOf(l) == Connected
  {
    Broadcast(Status(l.isCarConnected, error))
  }

  /** `stopHeartbeat`: clears the interval `heartbeatInterval` refers to, if any */
  function StopHeartbeat(l: Link): (r: Link)
    ensures r.heartbeatInterval.None?
    ensures r.liveTimers == l.liveTimers - TimerSet(l.heartbeatInterval)
    ensures r == l.(heartbeatInterval := None, liveTimers := r.liveTimers)
  {
    match l.heartbeatInterval
    case None => l
    case Some(t) => l.(heartbeatInterval := None, liveTimers := l.liveTimers - {t})
  }

  /** `startHeartbeat`: clears any prior interval, then starts a fresh one */
  function StartHeartbeat(l: Link): (r: Link)
    ensures r.heartbeatInterval.Some?
    ensures Valid(l) ==> r.heartbeatInterval.value !in l.liveTimers
    ensures r.liveTimers == l.liveTimers - TimerSet(l.heartbeatInterval) + TimerSet(r.heartbeatInterval)
    ensures l.liveTimers <= TimerSet(l.heartbeatInterval) ==> r.liveTimers == TimerSet(r.heartbeatInterval)
    ensures r == l.(heartbeatInterval := r.heartbeatInterval, liveTimers := r.liveTimers, nextTimer := r.nextTimer)
  {
    var c := StopHeartbeat(l);
    c.(heartbeatInterval := Some(c.nextTimer), liveTimers := c.liveTimers + {c.nextTimer}, nextTimer := c.nextTimer + 1)
  }

  /**
   * The state `disconnectFromCar(reason)` leaves `r` in, starting from `l`: no
   * socket, not connected, the heartbeat interval cleared, the last command
   * forgotten, everything else (the debounce time, the pending write callbacks)
   * as it was, and one disconnected status carrying the reason.
   */
  predicate TornDown(l: Link, r: Stepped, reason: string)
  {
    && r.link == l.(carSocket := None, isCarConnected := false, heartbeatInterval := None,
                    liveTimers := l.liveTimers - TimerSet(l.heartbeatInterval), lastSentCommand := None)
    && r.out == [Broadcast(Status(false, Some(reason)))]
  }

  /**
   * `disconnectFromCar(reason)`: from any state, stops the heartbeat, forgets
   * the last command, destroys the socket, and broadcasts one disconnected
   * status carrying the reason. The debounce time and the pending write
   * callbacks are left as they are.
   */
  function DisconnectFromCar(l: Link, reason: string): (r: Stepped)
    ensures PhaseOf(r.link) == Disconnected
    ensures r.link.heartbeatInterval.None? && r.link.lastSentCommand.None?
    ensures r.link.liveTimers == l.liveTimers - TimerSet(l.heartbeatInterval)
    ensures r.link.lastCommandTime == l.lastCommandTime && r.link.pendingWrites == l.pendingWrites
    ensures r.out == [Broadcast(Status(false, Some(reason)))]
    ensures TornDown(l, r, reason)
    ensures Valid(l) ==> Valid(r.link)
  {
    var h := StopHeartbeat(l);
    var d := h.(isCarConnected := false, lastSentCommand := None, carSocket := None);
    Stepped(d, [ConnectionStatus(d, Some(reason))])
  }

  /**
   * `connectToCar`: skipped silently while a socket exists or the link is
   * connected; otherwise opens a socket with the connect timeout armed and
   * broadcasts the "Connecting..." notice.
   */
  function ConnectToCar(l: Link, now: int): (r: Stepped)
    ensures l.carSocket.Some? || l.isCarConnected ==> r == Stepped(l, [])
    ensures PhaseOf(l) == Disconnected ==>
      && PhaseOf(r.link) == Connecting
      && r.link.carSocket == Some(Socket(Some(now)))
      && r.link == l.(carSocket := r.link.carSocket)
      && r.out == [Broadcast(Progress("Connecting..."))]
    ensures Valid(l) ==> Valid(r.link)
  {
    if l.carSocket.Some? || l.isCarConnected then Stepped(l, [])
    else
      Stepped(l.(carSocket := Some(Socket(Some(now)))), [Broadcast(Progress("Connecting..."))])
  }

  /** Whether `sendCarCommand` lets `payload` through its two filters */
  predicate PassesFilters(l: Link, payload: Codec.Payload, now: int)
  {
    payload == Codec.CmdHeartbeat
    || (now - l.lastCommandTime >= SendDebounceMs && l.lastSentCommand != Some(payload))
  }

  /**
   * `sendCarCommand(payload)`: nothing without a connected socket; otherwise
   * the debounce and duplicate filters, then the write. The write only records
   * a pending completion: neither filter variable changes here.
   */
  function SendCarCommand(l: Link, payload: Codec.Payload, now: int): (r: Stepped)
    ensures r.out == [] || r.out == [Wire(payload)]
    ensures r.out == [] ==> r.link == l
    ensures r.out != [] ==> r.link == l.(pendingWrites := l.pendingWrites + [PendingWrite(payload, now)])
    ensures !l.isCarConnected || l.carSocket.None? ==> r.out == []
    ensures Valid(l) ==> Valid(r.link)
  {
    if !l.isCarConnected || l.carSocket.None? then Stepped(l, [])
    else if now - l.lastCommandTime < SendDebounceMs && payload != Codec.CmdHeartbeat then Stepped(l, [])
    else if Some(payload) == l.lastSentCommand && payload != Codec.CmdHeartbeat then Stepped(l, [])
    else Stepped(l.(pendingWrites := l.pendingWrites + [PendingWrite(payload, now)]), [Wire(payload)])
  }

  /** The write's completion callback, run for pending write `index` with error `err` */
  function OnWriteSettled(l: Link, index: nat, err: Option<string>): (r: Stepped)
    ensures index >= |l.pendingWrites| ==> r == Stepped(l, [])
    ensures index < |l.pendingWrites| ==>
      r.link.pendingWrites == l.pendingWrites[..index] + l.pendingWrites[index + 1..]
    ensures index < |l.pendingWrites| && err.Some? ==>
      && PhaseOf(r.link) == Disconnected
      && r.link.heartbeatInterval.None? && r.link.lastSentCommand.None?
      && r.link.liveTimers == l.liveTimers - TimerSet(l.heartbeatInterval)
      && r.link.lastCommandTime == l.lastCommandTime
      && r.out == [Broadcast(Status(false, Some("Send Error: " + err.value)))]
    ensures index < |l.pendingWrites| && err.Some? ==>
      TornDown(l.(pendingWrites := r.link.pendingWrites), r, "Send Error: " + err.value)
    ensures index < |l.pendingWrites| && err.None? ==>
      var w := l.pendingWrites[index];
      && r.out == []
      && r.link.lastCommandTime == w.sentAt
      && r.link.lastSentCommand == (if w.payload == Codec.CmdHeartbeat then l.lastSentCommand else Some(w.payload))
      && r.link == l.(pendingWrites := r.link.pendingWrites, lastCommandTime := w.sentAt,
                      lastSentCommand := r.link.lastSentCommand)
    ensures Valid(l) ==> Valid(r.link)
  {
    if index >= |l.pendingWrites| then Stepped(l, [])
    else
      var w := l.pendingWrites[index];
      var rest := l.pendingWrites[..index] + l.pendingWrites[index + 1..];
      var l0 := l.(pendingWrites := rest);
      match err
      case Some(message) => DisconnectFromCar(l0, "Send Error: " + message)
      case None =>
        var l1 := l0.(lastCommandTime := w.sentAt);
        if w.payload != Codec.CmdHeartbeat then Stepped(l1.(lastSentCommand := Some(w.payload)), [])
        else Stepped(l1, [])
  }

  /**
   * The socket's connect callback: marks the link connected, disables the
   * connect timeout, starts the heartbeat, sends STOP through the filters and
   * broadcasts the connected status.
   */
  function OnOpen(l: Link, now: int): (r: Stepped)
    requires l.carSocket.Some?
    ensures PhaseOf(r.link) == Connected
    ensures Valid(l) ==> Valid(r.link) && |r.link.liveTimers| == 1
    ensures 1 <= |r.out| <= 2
    ensures r.out[|r.out| - 1] == Broadcast(Status(true, None))
    ensures |r.out| == 2 ==> r.out[0] == Wire(Codec.CmdStop)
    ensures |r.out| == 2 <==> PassesFilters(l, Codec.CmdStop, now)
    ensures r.link.lastCommandTime == l.lastCommandTime && r.link.lastSentCommand == l.lastSentCommand
    ensures r.link.pendingWrites == l.pendingWrites + (if |r.out| == 2 then [PendingWrite(Codec.CmdStop, now)] else [])
    ensures r.link == l.(isCarConnected := true, carSocket := Some(Socket(None)),
                         heartbeatInterval := r.link.heartbeatInterval, liveTimers := r.link.liveTimers,
                         nextTimer := r.link.nextTimer, pendingWrites := r.link.pendingWrites)
  {
    var c := l.(isCarConnected := true, carSocket := Some(Socket(None)));
    var h := StartHeartbeat(c);
    var s := SendCarCommand(h, Codec.CmdStop, now);
    Stepped(s.link, s.out + [ConnectionStatus(s.link, None)])
  }

  /** The socket's timeout callback */
  function OnTimeout(l: Link): (r: Stepped)
    ensures PhaseOf(r.link) == Disconnected
    ensures r.out == [Broadcast(Status(false, Some("Connection Timeout")))]
    ensures TornDown(l, r, "Connection Timeout")
    ensures Valid(l) ==> Valid(r.link)
  {
    DisconnectFromCar(l, "Connection Timeout")
  }

  /** The socket's error callback: logs only, leaving teardown to the close callback */
  function OnSocketError(l: Link): (r: Stepped)
    ensures r == Stepped(l, [])
  {
    Stepped(l, [])
  }

  /** The reason a close reports: whether the socket closed after an error */
  function CloseReason(hadError: bool): string
  {
    if hadError then "Socket Error/Closed" else "Connection Closed by Car"
  }

  /** The socket's close callback: tears down only if connected or a socket is still held */
  function OnClose(l: Link, hadError: bool): (r: Stepped)
    ensures PhaseOf(r.link) == Disconnected
    ensures PhaseOf(l) == Disconnected ==> r == Stepped(l, [])
    ensures PhaseOf(l) != Disconnected ==> r.out == [Broadcast(Status(false, Some(CloseReason(hadError))))]
    ensures PhaseOf(l) != Disconnected ==> TornDown(l, r, CloseReason(hadError))
    ensures Valid(l) ==> Valid(r.link)
  {
    if l.isCarConnected || l.carSocket.Some? then DisconnectFromCar(l, CloseReason(hadError))
    else Stepped(l, [])
  }

  /** The heartbeat interval's callback */
  function OnHeartbeat(l: Link, now: int): (r: Stepped)
    ensures l.isCarConnected && l.carSocket.Some? ==> r.out == [Wire(Codec.CmdHeartbeat)]
    ensures l.isCarConnected && l.carSocket.Some? ==>
      r.link == l.(pendingWrites := l.pendingWrites + [PendingWrite(Codec.CmdHeartbeat, now)])
    ensures !l.isCarConnected || l.carSocket.None? ==> r == Stepped(l, [])
    ensures Valid(l) ==> Valid(r.link)
  {
    SendCarCommand(l, Codec.CmdHeartbeat, now)
  }

  /**
   * The SIGINT handler's effect on the link before the process exits: the
   * heartbeat stops and, if connected, STOP is written directly, past both
   * filters.
   */
  function Shutdown(l: Link): (r: Stepped)
    requires Valid(l)
    ensures r.link.liveTimers == {}
    ensures r.out == (if PhaseOf(l) == Connected then [Wire(Codec.CmdStop)] else [])
  {
    var h := StopHeartbeat(l);
    if h.isCarConnected && h.carSocket.Some? then Stepped(h, [Wire(Codec.CmdStop)]) else Stepped(h, [])
  }
}

=== FILE: scenarios.dfy ===
/**
 * Properties of the relay that involve several events: what reaches the
 * vehicle and the clients when commands, heartbeats, write completions and
 * socket callbacks follow one another.
 */
module Scenarios {
  import opened Wrappers
  import Codec
  import opened VehicleLink
  import opened Session

  /** Running two events is running one, then the other on the result */
  lemma RunTwo(l: Link, a: Timed, b: Timed)
    ensures var s := Step(l, a.event, a.now);
            var t := Step(s.link, b.event, b.now);
            Run(l, [a, b]) == Stepped(t.link, s.out + t.out)
  {
    var s := Step(l, a.event, a.now);
    var t := Step(s.link, b.event, b.now);
    assert [a, b][1..] == [b];
    assert [b][1..] == [];
    assert Run(t.link, []) == Stepped(t.link, []);
    assert Run(s.link, [b]) == Stepped(t.link, t.out + []);
    assert t.out + [] == t.out;
  }

  /** Running three events is running them one after another */
  lemma RunThree(l: Link, a: Timed, b: Timed, c: Timed)
    ensures var s := Step(l, a.event, a.now);
            var t := Run(s.link, [b, c]);
            Run(l, [a, b, c]) == Stepped(t.link, s.out + t.out)
  {
    assert [a, b, c][1..] == [b, c];
  }

  /**
   * On a connected socket, a payload is written exactly when it passes the
   * filters: the heartbeat always does; any other payload is dropped within
   * `SendDebounceMs` of the last completed write, and when it equals the last
   * completed non-heartbeat payload.
   */
  lemma SendFilter(l: Link, payload: Codec.Payload, now: int)
    requires l.isCarConnected && l.carSocket.Some?
    ensures SendCarCommand(l, payload, now).out == [Wire(payload)] <==> PassesFilters(l, payload, now)
    ensures payload == Codec.CmdHeartbeat ==> SendCarCommand(l, payload, now).out == [Wire(payload)]
    ensures payload != Codec.CmdHeartbeat && now - l.lastCommandTime < SendDebounceMs ==>
      SendCarCommand(l, payload, now).out == []
    ensures payload != Codec.CmdHeartbeat && l.lastSentCommand == Some(payload) ==>
      SendCarCommand(l, payload, now).out == []
  {
  }

  /** A mapped action sent while connected, once its write has completed: the next send of it is dropped, whatever the delay */
  lemma DuplicateDropped(l: Link, action: string, t1: int, t2: int, t3: int)
    requires Valid(l) && PhaseOf(l) == Connected
    requires Codec.ActionCommand(action).Some?
    requires PassesFilters(l, Codec.ActionCommand(action).value, t1)
    ensures Run(l, [At(ClientMessage(Command(action)), t1),
                    At(WriteSettled(|l.pendingWrites|, None), t2),
                    At(ClientMessage(Command(action)), t3)]).out
            == [Wire(Codec.ActionCommand(action).value)]
  {
    var p := Codec.ActionCommand(action).value;
    var i := |l.pendingWrites|;
    var e1, e2, e3 := At(ClientMessage(Command(action)), t1), At(WriteSettled(i, None), t2),
                      At(ClientMessage(Command(action)), t3);
    CommandStep(l, action, t1);
    SendFilter(l, p, t1);
    var s1 := SendCarCommand(l, p, t1);
    assert s1.out == [Wire(p)];
    assert s1.link.pendingWrites[i] == PendingWrite(p, t1);
    var s2 := OnWriteSettled(s1.link, i, None);
    assert Step(s1.link, e2.event, e2.now) == s2;
    assert s2.out == [] && s2.link.lastSentCommand == Some(p);
    CommandStep(s2.link, action, t3);
    SendFilter(s2.link, p, t3);
    assert Step(s2.link, e3.event, e3.now).out == [];
    RunTwo(s1.link, e2, e3);
    RunThree(l, e1, e2, e3);
  }

  /**
   * After a write completes, a different action less than `SendDebounceMs`
   * after the first was sent is dropped: only the first reaches the vehicle.
   */
  lemma DebounceDropsSecond(l: Link, first: string, second: string, t1: int, t2: int, t3: int)
    requires Valid(l) && PhaseOf(l) == Connected
    requires Codec.ActionCommand(first).Some? && Codec.ActionCommand(second).Some?
    requires PassesFilters(l, Codec.ActionCommand(first).value, t1)
    requires t3 - t1 < SendDebounceMs
    ensures Run(l, [At(ClientMessage(Command(first)), t1),
                    At(WriteSettled(|l.pendingWrites|, None), t2),
                    At(ClientMessage(Command(second)), t3)]).out
            == [Wire(Codec.ActionCommand(first).value)]
  {
    var p := Codec.ActionCommand(first).value;
    var q := Codec.ActionCommand(second).value;
    var i := |l.pendingWrites|;
    var e1, e2, e3 := At(ClientMessage(Command(first)), t1), At(WriteSettled(i, None), t2),
                      At(ClientMessage(Command(second)), t3);
    CommandStep(l, first, t1);
    SendFilter(l, p, t1);
    var s1 := SendCarCommand(l, p, t1);
    assert s1.out == [Wire(p)];
    assert s1.link.pendingWrites[i] == PendingWrite(p, t1);
    var s2 := OnWriteSettled(s1.link, i, None);
    assert Step(s1.link, e2.event, e2.now) == s2;
    assert s2.out == [] && s2.link.lastCommandTime == t1;
    CommandStep(s2.link, second, t3);
    SendFilter(s2.link, q, t3);
    assert Step(s2.link, e3.event, e3.now).out == [];
    RunTwo(s1.link, e2, e3);
    RunThree(l, e1, e2, e3);
  }

  /** A completed heartbeat write debounces a command that follows it within `SendDebounceMs` */
  lemma HeartbeatDebouncesCommand(l: Link, timer: TimerId, action: string, t1: int, t2: int, t3: int)
    requires Valid(l) && PhaseOf(l) == Connected && timer in l.liveTimers
    requires Codec.ActionCommand(action).Some?
    requires t3 - t1 < SendDebounceMs
    ensures Run(l, [At(HeartbeatFired(timer), t1),
                    At(WriteSettled(|l.pendingWrites|, None), t2),
                    At(ClientMessage(Command(action)), t3)]).out
            == [Wire(Codec.CmdHeartbeat)]
  {
    var q := Codec.ActionCommand(action).value;
    var i := |l.pendingWrites|;
    var e1, e2, e3 := At(HeartbeatFired(timer), t1), At(WriteSettled(i, None), t2),
                      At(ClientMessage(Command(action)), t3);
    var s1 := OnHeartbeat(l, t1);
    assert Step(l, e1.event, e1.now) == s1;
    assert s1.link.pendingWrites[i] == PendingWrite(Codec.CmdHeartbeat, t1);
    var s2 := OnWriteSettled(s1.link, i, None);
    assert Step(s1.link, e2.event, e2.now) == s2;
    assert s2.out == [] && s2.link.lastCommandTime == t1;
    CommandStep(s2.link, action, t3);
    SendFilter(s2.link, q, t3);
    assert Step(s2.link, e3.event, e3.now).out == [];
    RunTwo(s1.link, e2, e3);
    RunThree(l, e1, e2, e3);
  }

  /** Two heartbeat ticks are both written, whatever the gap and even after the first completes */
  lemma HeartbeatsNeverDropped(l: Link, timer: TimerId, t1: int, t2: int, t3: int)
    requires Valid(l) && PhaseOf(l) == Connected && timer in l.liveTimers
    ensures Run(l, [At(HeartbeatFired(timer), t1),
                    At(WriteSettled(|l.pendingWrites|, None), t2),
                    At(HeartbeatFired(timer), t3)]).out
            == [Wire(Codec.CmdHeartbeat), Wire(Codec.CmdHeartbeat)]
  {
    var i := |l.pendingWrites|;
    var e1, e2, e3 := At(HeartbeatFired(timer), t1), At(WriteSettled(i, None), t2), At(HeartbeatFired(timer), t3);
    var s1 := OnHeartbeat(l, t1);
    assert Step(l, e1.event, e1.now) == s1;
    var s2 := OnWriteSettled(s1.link, i, None);
    assert Step(s1.link, e2.event, e2.now) == s2;
    assert s2.out == [] && s2.link.liveTimers == l.liveTimers;
    assert s2.link.isCarConnected && s2.link.carSocket.Some?;
    var s3 := OnHeartbeat(s2.link, t3);
    assert Step(s2.link, e3.event, e3.now) == s3;
    RunTwo(s1.link, e2, e3);
    RunThree(l, e1, e2, e3);
  }

  /**
   * The filters only see completed writes: the same action sent twice before
   * the first write completes is written twice.
   */
  lemma RepeatBeforeCompletionWrittenTwice(l: Link, action: string, t1: int, t2: int)
    requires Valid(l) && PhaseOf(l) == Connected
    requires Codec.ActionCommand(action).Some?
    requires PassesFilters(l, Codec.ActionCommand(action).value, t1) && t1 <= t2
    ensures Run(l, [At(ClientMessage(Command(action)), t1), At(ClientMessage(Command(action)), t2)]).out
            == [Wire(Codec.ActionCommand(action).value), Wire(Codec.ActionCommand(action).value)]
  {
    var p := Codec.ActionCommand(action).value;
    CommandStep(l, action, t1);
    var s1 := SendCarCommand(l, p, t1);
    SendFilter(l, p, t1);
    CommandStep(s1.link, action, t2);
    SendFilter(s1.link, p, t2);
    RunTwo(l, At(ClientMessage(Command(action)), t1), At(ClientMessage(Command(action)), t2));
  }

  /**
   * A socket error on a connected link followed by its close runs the
   * teardown once: one disconnected status reaches the clients, no timer is
   * left, and a later close of the same socket reaches no handler.
   */
  lemma ErrorThenCloseTearsDownOnce(l: Link, t1: int, t2: int, t3: int)
    requires Valid(l) && PhaseOf(l) == Connected
    ensures var r := Run(l, [At(SocketFailed, t1), At(SocketClosed(true), t2), At(SocketClosed(true), t3)]);
      && r.out == [Broadcast(Status(false, Some("Socket Error/Closed")))]
      && PhaseOf(r.link) == Disconnected
      && r.link.liveTimers == {}
  {
    var s1 := Step(l, SocketFailed, t1);
    assert s1.link == l;
    RunThree(l, At(SocketFailed, t1), At(SocketClosed(true), t2), At(SocketClosed(true), t3));
    RunTwo(l, At(SocketClosed(true), t2), At(SocketClosed(true), t3));
  }

  /**
   * Connecting from a disconnected link and then opening: clients see the
   * "Connecting..." notice, the vehicle gets STOP first (when the last
   * completed write is at least `SendDebounceMs` old and was not STOP), then
   * clients see the connected status; exactly one interval runs.
   */
  lemma ConnectThenOpen(l: Link, t1: int, t2: int)
    requires Valid(l) && PhaseOf(l) == Disconnected
    requires t2 - l.lastCommandTime >= SendDebounceMs && l.lastSentCommand != Some(Codec.CmdStop)
    ensures var r := Run(l, [At(ClientMessage(Connect), t1), At(SocketOpened, t2)]);
      && r.out == [Broadcast(Progress("Connecting...")), Wire(Codec.CmdStop), Broadcast(Status(true, None))]
      && PhaseOf(r.link) == Connected
      && |r.link.liveTimers| == 1
  {
    var s1 := ConnectToCar(l, t1);
    assert PassesFilters(s1.link, Codec.CmdStop, t2);
    var s2 := OnOpen(s1.link, t2);
    RunTwo(l, At(ClientMessage(Connect), t1), At(SocketOpened, t2));
  }

  /**
   * The initial STOP goes through the debounce filter: when the socket opens
   * less than `SendDebounceMs` after the last completed write, STOP is not
   * written and only the statuses go out.
   */
  lemma InitialStopDebounced(l: Link, t1: int, t2: int)
    requires Valid(l) && PhaseOf(l) == Disconnected
    requires t2 - l.lastCommandTime < SendDebounceMs
    ensures Run(l, [At(ClientMessage(Connect), t1), At(SocketOpened, t2)]).out
            == [Broadcast(Progress("Connecting...")), Broadcast(Status(true, None))]
  {
    var s1 := ConnectToCar(l, t1);
    var s2 := OnOpen(s1.link, t2);
    assert !PassesFilters(s1.link, Codec.CmdStop, t2);
    RunTwo(l, At(ClientMessage(Connect), t1), At(SocketOpened, t2));
  }

  /** Disconnecting twice leaves the link as disconnecting once did; each call broadcasts its reason */
  lemma DisconnectIdempotent(l: Link, first: string, second: string)
    ensures DisconnectFromCar(DisconnectFromCar(l, first).link, second).link == DisconnectFromCar(l, first).link
  {
  }

  /** A client that joins is sent the link's status as it is at that moment; nothing else changes */
  lemma LateJoinerSeesCurrentStatus(l: Link, now: int)
    ensures Step(l, ClientJoined, now) == Stepped(l, [Broadcast(Status(PhaseOf(l) == Connected, None))])
  {
  }

  /** Once disconnected, no socket callback or interval reaches the link */
  lemma DisconnectedIgnoresSocketEvents(l: Link, e: Event, now: int)
    requires Valid(l) && PhaseOf(l) == Disconnected
    requires e.SocketOpened? || e.SocketTimedOut? || e.SocketFailed? || e.SocketClosed? || e.HeartbeatFired?
    ensures Step(l, e, now) == Stepped(l, [])
  {
  }

  /** A LEFT intent on a connected, unfiltered link writes the turn frame with code 1 and speed 75 */
  lemma LeftReachesVehicle(l: Link, now: int)
    requires Valid(l) && PhaseOf(l) == Connected
    requires PassesFilters(l, Codec.CmdLeft, now)
    ensures Step(l, ClientMessage(Command("LEFT")), now).out == [Wire(Codec.Drive(Codec.Frame(3, 1, 75)))]
  {
    CommandStep(l, "LEFT", now);
    SendFilter(l, Codec.CmdLeft, now);
  }

  /** Connect then open on a link whose filters reject STOP: only the two statuses go out */
  lemma ConnectThenOpenWithoutStop(l: Link, t1: int, t2: int)
    requires Valid(l) && PhaseOf(l) == Disconnected
    requires !PassesFilters(l, Codec.CmdStop, t2)
    ensures Run(l, [At(ClientMessage(Connect), t1), At(SocketOpened, t2)]).out
            == [Broadcast(Progress("Connecting...")), Broadcast(Status(true, None))]
  {
    var s1 := ConnectToCar(l, t1);
    assert !PassesFilters(s1.link, Codec.CmdStop, t2);
    var s2 := OnOpen(s1.link, t2);
    RunTwo(l, At(ClientMessage(Connect), t1), At(SocketOpened, t2));
  }

  /**
   * A STOP write that completes after the link was torn down still records
   * STOP as the last command, so the safety STOP of the next open is dropped
   * as a duplicate, however long after the write the socket opens.
   */
  lemma LateStopCompletionSuppressesInitialStop(l: Link, i: nat, t0: int, t1: int, t2: int)
    requires Valid(l) && PhaseOf(l) == Disconnected
    requires i < |l.pendingWrites| && l.pendingWrites[i].payload == Codec.CmdStop
    requires t2 - l.pendingWrites[i].sentAt >= SendDebounceMs
    ensures Run(l, [At(WriteSettled(i, None), t0), At(ClientMessage(Connect), t1), At(SocketOpened, t2)]).out
            == [Broadcast(Progress("Connecting...")), Broadcast(Status(true, None))]
  {
    var e1, e2, e3 := At(WriteSettled(i, None), t0), At(ClientMessage(Connect), t1), At(SocketOpened, t2);
    var s1 := OnWriteSettled(l, i, None);
    assert Step(l, e1.event, e1.now) == s1;
    assert s1.out == [] && s1.link.lastSentCommand == Some(Codec.CmdStop);
    ConnectThenOpenWithoutStop(s1.link, t1, t2);
    RunThree(l, e1, e2, e3);
  }

  /**
   * A write callback survives the teardown of its connection: when a write
   * issued before a disconnect fails after a new connection has opened, it
   * tears the new connection down.
   */
  lemma LateFailureTearsDownNewConnection(l: Link, message: string, t1: int, t2: int, t3: int, t4: int)
    requires Valid(l) && PhaseOf(l) == Connected && |l.pendingWrites| > 0
    ensures var r := Run(l, [At(ClientMessage(DisconnectCar), t1), At(ClientMessage(Connect), t2),
                             At(SocketOpened, t3), At(WriteSettled(0, Some(message)), t4)]);
      && PhaseOf(r.link) == Disconnected
      && r.out[|r.out| - 1] == Broadcast(Status(false, Some("Send Error: " + message)))
  {
    var e1, e2, e3, e4 := At(ClientMessage(DisconnectCar), t1), At(ClientMessage(Connect), t2),
                          At(SocketOpened, t3), At(WriteSettled(0, Some(message)), t4);
    var s1 := DisconnectFromCar(l, "Client request");
    assert Step(l, e1.event, e1.now) == s1;
    var s2 := ConnectToCar(s1.link, t2);
    assert Step(s1.link, e2.event, e2.now) == s2;
    var s3 := OnOpen(s2.link, t3);
    assert Step(s2.link, e3.event, e3.now) == s3;
    assert PhaseOf(s3.link) == Connected;
    assert |s3.link.pendingWrites| > 0;
    var s4 := OnWriteSettled(s3.link, 0, Some(message));
    assert Step(s3.link, e4.event, e4.now) == s4;
    assert [e1, e2, e3, e4][1..] == [e2, e3, e4];
    RunThree(s1.link, e2, e3, e4);
    RunTwo(s2.link, e3, e4);
  }

  /** A connect attempt that stays unanswered for `ConnectTimeoutMs` times out and tears down */
  lemma ConnectThenTimeout(l: Link, t1: int, t2: int)
    requires Valid(l) && PhaseOf(l) == Disconnected && t2 - t1 >= ConnectTimeoutMs
    ensures var r := Run(l, [At(ClientMessage(Connect), t1), At(SocketTimedOut, t2)]);
            && PhaseOf(r.link) == Disconnected
            && r.out == [Broadcast(Progress("Connecting...")), Broadcast(Status(false, Some("Connection Timeout")))]
  {
    RunTwo(l, At(ClientMessage(Connect), t1), At(SocketTimedOut, t2));
  }

  /** The connect timeout does not fire before `ConnectTimeoutMs` have passed */
  lemma EarlyTimeoutIgnored(l: Link, t1: int, t2: int)
    requires Valid(l) && PhaseOf(l) == Disconnected && t2 - t1 < ConnectTimeoutMs
    ensures var s := Step(l, ClientMessage(Connect), t1);
            Step(s.link, SocketTimedOut, t2) == Stepped(s.link, [])
  {
  }

  /** Once connected the timeout is disabled, and inbound data is only logged */
  lemma ConnectedIgnoresTimeoutAndData(l: Link, now: int)
    requires Valid(l) && PhaseOf(l) == Connected
    ensures Step(l, SocketTimedOut, now) == Stepped(l, [])
    ensures Step(l, SocketData, now) == Stepped(l, [])
  {
  }

  /** A cleared interval never ticks again */
  lemma StoppedIntervalIsSilent(l: Link, timer: TimerId, now: int)
    requires timer !in l.liveTimers
    ensures Step(l, HeartbeatFired(timer), now) == Stepped(l, [])
  {
  }
}

=== FILE: session.dfy ===
/**
 * The relay's event loop: everything that can happen to the server — a
 * client joining, a client frame, a socket callback, a heartbeat tick, a
 * write completing — as one event type, each delivered only when the
 * runtime could deliver it, and the fold of a timed event trace.
 */
module Session {
  import opened Wrappers
  import Codec
  import opened VehicleLink

  /** A client frame after `JSON.parse`; anything else, malformed frames included, is `Unrecognised` */
  datatype Intent = Connect | DisconnectCar | Command(action: string) | Unrecognised

  datatype Event =
    | ClientJoined
    | ClientMessage(intent: Intent)
    | SocketOpened
    | SocketTimedOut
    | SocketFailed
    | SocketData
    | SocketClosed(hadError: bool)
    | HeartbeatFired(timer: TimerId)
    | WriteSettled(index: nat, err: Option<string>)

  datatype Timed = At(event: Event, now: int)

  /** The per-client `message` handler */
  function HandleMessage(l: Link, intent: Intent, now: int): (r: Stepped)
    ensures intent.Connect? && PhaseOf(l) == Connected ==> r == Stepped(l, [Broadcast(Status(true, None))])
    ensures intent.Connect? && PhaseOf(l) == Connecting ==> r == Stepped(l, [])
    ensures intent.Connect? && PhaseOf(l) == Disconnected ==>
      PhaseOf(r.link) == Connecting && r.out == [Broadcast(Progress("Connecting..."))]
    ensures intent.Connect? && PhaseOf(l) == Disconnected ==> r.link == l.(carSocket := Some(Socket(Some(now))))
    ensures intent.DisconnectCar? ==>
      PhaseOf(r.link) == Disconnected && r.out == [Broadcast(Status(false, Some("Client request")))]
    ensures intent.DisconnectCar? ==> TornDown(l, r, "Client request")
    ensures intent.Command? && Codec.ActionCommand(intent.action).None? ==> r == Stepped(l, [])
    ensures intent.Unrecognised? ==> r == Stepped(l, [])
    ensures forall i :: 0 <= i < |r.out| && r.out[i].Wire? ==>
      intent.Command? && Some(r.out[i].payload) == Codec.ActionCommand(intent.action)
    ensures Valid(l) ==> Valid(r.link)
  {
    match intent
    case Connect =>
      if !l.isCarConnected then ConnectToCar(l, now)
      else Stepped(l, [ConnectionStatus(l, None)])
    case DisconnectCar => DisconnectFromCar(l, "Client request")
    case Command(action) =>
      (match Codec.ActionCommand(action)
       case Some(payload) => SendCarCommand(l, payload, now)
       case None => Stepped(l, []))
    case Unrecognised => Stepped(l, [])
  }

  /**
   * One event. Socket callbacks reach the link only while a socket is held
   * (`disconnectFromCar` removes all listeners before destroying it); the
   * connect callback fires once, before the link is connected; the timeout
   * fires only while armed and `ConnectTimeoutMs` after arming; an interval
   * fires only while it runs.
   */
  function Step(l: Link, e: Event, now: int): (r: Stepped)
    ensures Valid(l) ==> Valid(r.link)
  {
    match e
    case ClientJoined => Stepped(l, [ConnectionStatus(l, None)])
    case ClientMessage(intent) => HandleMessage(l, intent, now)
    case SocketOpened =>
      if PhaseOf(l) == Connecting then OnOpen(l, now) else Stepped(l, [])
    case SocketTimedOut =>
      if l.carSocket.Some? && l.carSocket.value.idleTimeoutSince.Some?
         && now - l.carSocket.value.idleTimeoutSince.value >= ConnectTimeoutMs
      then OnTimeout(l) else Stepped(l, [])
    case SocketFailed =>
      if l.carSocket.Some? then OnSocketError(l) else Stepped(l, [])
    case SocketData => Stepped(l, [])
    case SocketClosed(hadError) =>
      if l.carSocket.Some? then OnClose(l, hadError) else Stepped(l, [])
    case HeartbeatFired(timer) =>
      if timer in l.liveTimers then OnHeartbeat(l, now) else Stepped(l, [])
    case WriteSettled(index, err) => OnWriteSettled(l, index, err)
  }

  /** The events of a trace in order, with everything they emitted */
  function Run(l: Link, evs: seq<Timed>): (r: Stepped)
    ensures Valid(l) ==> Valid(r.link)
    decreases |evs|
  {
    if |evs| == 0 then Stepped(l, [])
    else
      var s := Step(l, evs[0].event, evs[0].now);
      var t := Run(s.link, evs[1..]);
      Stepped(t.link, s.out + t.out)
  }

  /** Every state the server can reach from start-up satisfies the link invariant */
  lemma {:induction false} ReachableValid(evs: seq<Timed>)
    ensures Valid(Run(Initial, evs).link)
    ensures Run(Initial, evs).link.liveTimers != {} <==> PhaseOf(Run(Initial, evs).link) == Connected
  {
    InitialValid();
    HeartbeatOnlyWhileConnected(Run(Initial, evs).link);
  }

  function Repeat(e: Timed, n: nat): (r: seq<Timed>)
    ensures |r| == n && forall i :: 0 <= i < n ==> r[i] == e
  {
    seq(n, _ => e)
  }

  /**
   * Any number of connect intents on a connected link leave it unchanged and
   * broadcast the connected status once each.
   */
  lemma {:induction false} RepeatedConnectWhileConnected(l: Link, n: nat, now: int)
    requires PhaseOf(l) == Connected
    ensures Run(l, Repeat(At(ClientMessage(Connect), now), n)) == Stepped(l, seq(n, _ => Broadcast(Status(true, None))))
    decreases n
  {
    var evs := Repeat(At(ClientMessage(Connect), now), n);
    if n > 0 {
      assert evs[1..] == Repeat(At(ClientMessage(Connect), now), n - 1);
      RepeatedConnectWhileConnected(l, n - 1, now);
      assert [Broadcast(Status(true, None))] + seq(n - 1, _ => Broadcast(Status(true, None)))
        == seq(n, _ => Broadcast(Status(true, None)));
    }
  }

  /** Any number of connect intents on a connecting link are silently skipped */
  lemma {:induction false} RepeatedConnectWhileConnecting(l: Link, n: nat, now: int)
    requires PhaseOf(l) == Connecting
    ensures Run(l, Repeat(At(ClientMessage(Connect), now), n)) == Stepped(l, [])
    decreases n
  {
    var evs := Repeat(At(ClientMessage(Connect), now), n);
    if n > 0 {
      assert evs[1..] == Repeat(At(ClientMessage(Connect), now), n - 1);
      RepeatedConnectWhileConnecting(l, n - 1, now);
    }
  }

  /** A command intent for a mapped action is `sendCarCommand` of its payload */
  lemma CommandStep(l: Link, action: string, now: int)
    requires Codec.ActionCommand(action).Some?
    ensures Step(l, ClientMessage(Command(action)), now) == SendCarCommand(l, Codec.ActionCommand(action).value, now)
  {
  }
}

=== FILE: wrappers.dfy ===
/** The optional-value type used for JavaScript's `null`-or-value variables. */
module Wrappers {

  datatype Option<+T> = None | Some(value: T)
}
